=== FILE: README.md ===
# demokrati voting app: a Dafny model of its election and sign-in logic

demokrati is a small Next.js voting app. An administrator signs in and sets
the post being voted on (the "role"). The administrator then manages the
candidate list, views a tally of the `votes` table and resets it. Voters sign
in with an email from the `emails` list and record one choice per post.
Their choices are kept in the browser as `votedData`, a nested map
post → email → candidate.

This project pulls the logic of those pages and API routes out of the React,
Supabase and cookie plumbing. It models them as pure transitions over
immutable values:

- **Store** (`store.dfy`): the four tables as ordered sequences of rows. An
  election row has a primary key. The store hands out a fresh key on each
  insert, and `Store.Valid` states the key discipline. A store request's
  success or failure is an explicit argument (`Basics.Reply`). It is never
  assumed.
- **Admin dashboard** (`admin_dash.dfy`): the load effect collapses
  `elections` to one row, or creates one. The module also covers saving the
  post, adding a trimmed candidate, removing every copy of a name, showing
  results, resetting votes and resetting attendance.
- **Tally** (`tally.dfy`): the intended per-candidate count of vote rows for
  the current post. It is given as a fold and as the dashboard's loop with
  the counts kept in a map rather than an object literal. Its contract ties
  each entry to the number of matching rows. A lemma shows that the counts
  add up to the number of rows.
- **Ballot ledger** (`ballot.dfy`): the voter dashboard's has-voted check on
  load, and the submit handler with its one-choice-per-(post, email) guard.
- **Sign-in routes**: `admin_login.dfy`, `check_email.dfy`,
  `verify_admin.dfy`, `verify_user.dfy` and `logout.dfy`. Each one is a
  function from what the route reads (the request's cookie jar, from
  `cookies.dfy`, or its body) to a reply holding what the route sends back.
  Login and check-email reply with a status, JSON fields and `Set-Cookie`
  instructions. The two verify routes reply with a status and JSON fields
  only. Logout replies with its JSON field and the `Set-Cookie`
  instructions, because its status is always the default 200.
  `Cookies.Apply` plays `Set-Cookie` instructions into the browser's jar, so
  that logging in or out can be related to the verify routes.
- **Admin session version** (`admin_session.dfy`): the process-wide counter
  that starts at 1. `logout-all` only ever increments it.
- **JavaScript tally** (`js_tally.dfy`): the results loop as JavaScript runs
  it, on an object literal. See Findings.

The model follows the code where the code and the design intent differ, with
one exception. For the results shown, `AdminDash.ShowResults` uses the
intended tally and not the page's loop as written. Findings records the
difference, and `JsTally` models the loop as written. Elsewhere:

- No route compares a cookie with the session version. The counter is
  modelled, but no token validation is.
- No admin action is gated on privileges. `verify-admin` only normalises the
  privilege label.
- Nothing in the code inserts into `votes`. The voter's choice goes only into
  browser storage.
- Saving the post is not atomic. It is a delete followed by an insert, so if
  the delete succeeds and the insert fails, the `elections` table is left
  empty (`AdminDash.SaveRole`).
- The duplicate-row delete at load time is not checked for errors. When it
  fails, the duplicate rows stay and the load carries on (`AdminDash.Load`).
- Candidate names are not deduplicated (`AdminDash.AddKeepsDuplicates`).

## Model

| member | source | states |
|---|---|---|
| `JsString.Trim` | src/app/admindash/page.tsx:122-123 | `trim()` yields "" exactly when the name is blank; otherwise neither end of the result is whitespace |
| `JsString.TrimIsInfix` | src/app/admindash/page.tsx:122 | for every input there is a prefix length `i` such that the trimmed name is the infix starting at `i`, with a whitespace-only prefix before it and a whitespace-only suffix after it |
| `JsString.TrimIdempotent` | src/app/admindash/page.tsx:122 | trimming an already-trimmed name changes nothing |
| `Store.InsertElection` | src/app/admindash/page.tsx:104-108 | an insert appends one row holding the post under a fresh key and keeps the keys distinct; the other tables are untouched |
| `Store.Ids` | src/app/admindash/page.tsx:68 | the listed keys are exactly the keys of the given rows: every row's key is listed, and every listed key belongs to some row |
| `Store.DeleteIds` | src/app/admindash/page.tsx:68-69 | deleting by key keeps exactly the rows whose key is not listed |
| `Store.DeleteAllListed` | src/app/admindash/page.tsx:68-69 | deleting by key removes every row whose key is listed |
| `Store.KeepFirst` | src/app/admindash/page.tsx:64-70 | with distinct keys, deleting the keys of every row but the first leaves exactly the first row |
| `Store.VotesFor` | src/app/admindash/page.tsx:176-179 | the query for the current post returns each candidate name as many times as there are vote rows for (post, name) |
| `AdminDash.LoadCandidates` | src/app/admindash/page.tsx:73-81 | the shown list becomes the `candidates` table when the fetch succeeds and stays as it was when the fetch fails |
| `AdminDash.Load` | src/app/admindash/page.tsx:35-85 | a failed election fetch changes nothing. With no rows, one row with post "" is inserted and "" is shown, or nothing changes if the insert fails. With rows, the first row's post (or "") is shown, and the table is reduced to that row unless the unchecked delete failed. Whenever the effect gets as far as fetching candidates, the shown list becomes the `candidates` table if that fetch succeeds and is kept if it fails. Votes, emails, the results and the name input are untouched |
| `AdminDash.FirstLoad` | src/app/admindash/page.tsx:35-81 | a freshly mounted dashboard on a store with no election row, every request succeeding, creates one row holding the empty post and shows the stored candidates, with nothing else set |
| `AdminDash.LoadIdempotent` | src/app/admindash/page.tsx:64-70 | when every request succeeds, a second load finds the single row left by the first and keeps it and its post |
| `AdminDash.SaveRole` | src/app/admindash/page.tsx:90-116 | a failed delete-all changes nothing. After a successful delete, a failed insert leaves no election row, and a successful one leaves exactly one row holding the entered post |
| `AdminDash.SaveThenLoad` | src/app/admindash/page.tsx:90-116 | saving a post and then loading shows the saved post from a single row |
| `AdminDash.AddCandidate` | src/app/admindash/page.tsx:121-135 | a blank name is a no-op. Otherwise the input is cleared, and on a successful insert the trimmed, non-blank name is appended to the table and to the list, with earlier entries unchanged |
| `AdminDash.AddKeepsDuplicates` | src/app/admindash/page.tsx:126-134 | a name already in the list is added once more, not refused |
| `AdminDash.RemoveCandidate` | src/app/admindash/page.tsx:140-150 | a failed delete changes nothing. Otherwise every copy of the name leaves the table and the list, and every other name keeps its number of occurrences |
| `Basics.OrEmpty` | src/app/admindash/page.tsx:62-66 | `x \|\| ""` on a possibly-absent string is non-empty exactly when the value is present and non-empty, and is then that value |
| `Basics.Without` | src/app/admindash/page.tsx:149 | `filter((c) => c !== cand)` keeps exactly the elements other than `cand` and never grows the list |
| `Basics.WithoutCounts` | src/app/admindash/page.tsx:149 | `filter((c) => c !== cand)` removes exactly the copies of `cand` |
| `Basics.WithoutIdempotent` | src/app/admindash/page.tsx:149 | after the filter the name no longer occurs, and filtering again changes nothing |
| `Basics.WithoutAppend` | src/app/admindash/page.tsx:149 | filtering works element by element and keeps the rest in order: filtering a concatenation filters each part |
| `AdminDash.ResetAttendance` | src/app/admindash/page.tsx:155-163 | a successful delete empties `emails`; a failed one changes nothing |
| `AdminDash.ShowResults` | src/app/admindash/page.tsx:168-200 | with no post set or a failed query the results are {}. Otherwise a name is a key exactly when some vote row for the post names it, and its count is the number of such rows. Nothing else changes |
| `AdminDash.ShowResultsAsWritten` | src/app/admindash/page.tsx:192-199 | when no fetched name is named like an inherited object member, the shown counts equal, as JavaScript numbers, what the page's loop leaves in its result object |
| `AdminDash.ResultsSumToVotes` | src/app/admindash/page.tsx:192-199 | the shown counts add up to the number of vote rows for the post |
| `AdminDash.ResetVotes` | src/app/admindash/page.tsx:205-217 | on success `votes` is empty and the results are {}; on failure nothing changes |
| `AdminDash.ResetThenShowIsEmpty` | src/app/admindash/page.tsx:205-216 | after a successful reset, showing results yields {} |
| `Tally.Bump` | src/app/admindash/page.tsx:196 | one more vote for a name: it becomes a key whose count is one more than before (or 1), and the map without that name is unchanged |
| `Tally.Tally` | src/app/admindash/page.tsx:192-197 | the intended tally has a key for exactly the names that occur, and maps each one to its number of occurrences, which is never 0 |
| `Tally.CountVotes` | src/app/admindash/page.tsx:193-197 | the page's loop with the counts kept in a map, the intended tally, computes `Tally.Tally`: a key for exactly the names fetched, each with its number of rows, and counts that add up to the number of rows (the loop on an object literal, as written, is `JsTally.TallyAsWritten`) |
| `Tally.TallySum` | src/app/admindash/page.tsx:192-197 | the counts of a tally add up to the number of names tallied |
| `Tally.SumRemove` | src/app/admindash/page.tsx:192-197 | a map's sum of counts does not depend on the order in which keys are taken |
| `JsTally.Step` | src/app/admindash/page.tsx:195-196 | one iteration as JavaScript runs it: other keys are untouched, "__proto__" changes nothing, a fresh ordinary name gets 1, a numeric count goes up by one, and a fresh inherited-member name gets a string |
| `JsTally.TallyAsWritten` | src/app/admindash/page.tsx:192-197 | the loop as written leaves a result object owning a key for every fetched name except "__proto__" |
| `JsTally.AgreesOnOrdinaryNames` | src/app/admindash/page.tsx:193-197 | when no candidate shares a name with an inherited object member, the loop as JavaScript runs it yields exactly the intended counts |
| `JsTally.ConstructorMiscounted` | src/app/admindash/page.tsx:193-197 | one vote for "constructor" is shown as a string and not as 1; with V8's text for built-in functions, that string is "function Object() { [native code] }1" |
| `JsTally.ProtoVoteLost` | src/app/admindash/page.tsx:193-197 | for every list of fetched names, "__proto__" is never a key of the results as written, while the intended tally counts each such vote |
| `Ballot.Lookup` | src/app/dashboard/page.tsx:7-11 | `votedData[post][email]` is present exactly when both keys are |
| `Ballot.Load` | src/app/dashboard/page.tsx:28-72 | on load, hasVoted is true exactly when the stored post and email are non-empty and the ledger holds a non-empty choice for them |
| `Ballot.Submit` | src/app/dashboard/page.tsx:75-118 | no post, no selection and an existing choice each refuse and leave the ledger unchanged; an existing choice also sets hasVoted. Otherwise the pair gets the selection, every other (post, email) entry is unchanged, and hasVoted is true |
| `Ballot.SubmitKeepsWellFormed` | src/app/dashboard/page.tsx:84-109 | every recorded choice stays non-empty |
| `Ballot.SecondSubmitRefused` | src/app/dashboard/page.tsx:102-106 | after a recorded vote, every later submission for the same (post, email) is refused and the ledger keeps the first choice |
| `Ballot.OneChoicePerPair` | src/app/dashboard/page.tsx:102-106 | in a well-formed ledger a pair that already has an entry can never record again |
| `Ballot.ReloadAfterVote` | src/app/dashboard/page.tsx:55-67 | reloading after a recorded vote shows the voter as having voted |
| `Cookies.Get` | src/app/api/verify-user/route.ts:6 | reading a cookie yields its value exactly when the request carries it |
| `Cookies.Apply` | src/app/api/logout/route.ts:6-8 | processing `Set-Cookie` instructions leaves every cookie they do not name as it was |
| `Cookies.ApplyLast` | src/app/api/logout/route.ts:6-8 | a cookie named by an instruction ends up removed (max-age 0) or holding that instruction's value |
| `VerifyAdmin.NormalizePrivileges` | src/app/api/verify-admin/route.ts:6-10 | the privilege label is always one of "", "all", "valberedning" and "results". A listed cookie value is kept, and a missing or unlisted one becomes "" |
| `VerifyAdmin.Verify` | src/app/api/verify-admin/route.ts:4-17 | admin exactly when the `isAdmin` cookie is "true", and then status 200 with the normalised label. Anyone else gets privileges "" and status 401 |
| `VerifyAdmin.NormalizeIdempotent` | src/app/api/verify-admin/route.ts:8-10 | normalising a normalised label changes nothing |
| `VerifyAdmin.OnlyTwoCookiesMatter` | src/app/api/verify-admin/route.ts:5-6 | the answer depends on the `isAdmin` and `adminPrivileges` cookies alone |
| `VerifyUser.Verify` | src/app/api/verify-user/route.ts:5-12 | valid exactly when the `userEmail` cookie is present and non-empty, and then the cookie's value is returned as the email. Otherwise the reply is 401 with no email |
| `VerifyUser.EmptyCookieSignedOut` | src/app/api/verify-user/route.ts:7 | an empty `userEmail` cookie counts as signed out |
| `AdminLogin.Login` | src/app/api/admin-login/route.ts:3-31 | success exactly when both possibly-absent fields strictly equal the configured values, and then status 200 and cookie `isAdmin=true`. A mismatch gives 401 and a parse failure 500, neither with a cookie |
| `AdminLogin.FailureUninformative` | src/app/api/admin-login/route.ts:18-22 | a wrong name and a wrong password get identical replies |
| `AdminLogin.UnsetConfigAdmitsEmptyBody` | src/app/api/admin-login/route.ts:5-10 | with neither value configured, a body with neither field logs in |
| `AdminLogin.LoginThenVerify` | src/app/api/admin-login/route.ts:11-16 | after a successful login, verify-admin finds an admin |
| `CheckEmail.Matching` | src/app/api/check-email/route.ts:16-19 | the query returns rows, all equal to the email, exactly when the email is in the list |
| `CheckEmail.Check` | src/app/api/check-email/route.ts:10-51 | valid exactly when the body parsed, the query succeeded and the email is listed, and then status 200 with cookie `userEmail` set to the email. Otherwise there is no cookie: 400 for a bad body, 500 for a store error whether or not the email is listed, and 404 for no match |
| `CheckEmail.CheckThenVerify` | src/app/api/check-email/route.ts:31-36 | after a successful check, verify-user returns that email, unless the listed email is "" |
| `Logout.Logout` | src/app/api/logout/route.ts:4-10 | the reply always succeeds. It sets `userEmail` and `isAdmin` to "" with max-age 0 and names no other cookie |
| `Logout.LogoutRevokes` | src/app/api/logout/route.ts:7-8 | after logout verify-user is invalid and verify-admin is not-admin with privileges "". Every other cookie, `adminPrivileges` among them, keeps its value |
| `Logout.EmptyValuesRevoke` | src/app/api/logout/route.ts:7-8 | a client that keeps both cookies as "" is signed out as well |
| `AdminSession.Increment` | lib/adminSession.ts:5-7 | each increment raises the version by exactly one |
| `AdminSession.LogoutAll` | src/app/api/logout-all/route.ts:5-8 | a logout-all request increments the version once and replies success |
| `AdminSession.Run` | src/app/api/logout-all/route.ts:5-8 | zero logout-all requests leave the counter as it was, and one or more raise the version |
| `AdminSession.RunAdds` | lib/adminSession.ts:5-7 | n logout-all requests raise the version by exactly n |
| `AdminSession.FromStart` | lib/adminSession.ts:3-7 | from start-up (version 1), n requests leave the version at 1 + n |
| `AdminSession.Monotonic` | lib/adminSession.ts:5-7 | the version never decreases |

## Findings

| source | as written | input that shows it | evidently intended | confidence | as-written member | corrected member |
|---|---|---|---|---|---|---|
| src/app/admindash/page.tsx:193-197 | the tally is a plain object literal, so `tally[cand] \|\| 0` reads inherited members of `Object.prototype` | vote rows naming "constructor" (shown as a string, in V8 "function Object() { [native code] }1") or "__proto__" (dropped) | every name counted from 0, whatever it is called | medium, not executed | `JsTally.ConstructorMiscounted` | `Tally.Tally` |

`JsTally.ProtoVoteLost` is a second exhibit for the same row.
`JsTally.AgreesOnOrdinaryNames` shows that the two tallies agree whenever no
such name occurs. `AdminDash.ShowResults` uses the corrected tally.

## Left out

- AdminDash.ShowResults: the transition uses the intended tally (`Tally.Tally`), not the page's loop as written. For a vote naming an inherited object member such as "constructor", the page shows a string where the model shows a count. A vote for "__proto__" is dropped by the page but is a key in the model. `AdminDash.ShowResultsAsWritten` shows that the two agree on every other name, and Findings records the difference.
- AdminDash.Load: the `select("*")` on `elections` has no `order()`, so which row counts as first is up to the store. The model's row sequence stands for whatever order the store returns. `Store.InsertElection` appending at the end is one such order.
- AdminSession.Increment: JavaScript numbers are doubles, so `adminSessionVersion++` is exact only below 2^53. The model uses unbounded integers, and so do `AdminSession.RunAdds` and `AdminSession.FromStart`. A version that large cannot be reached in practice.
- JsTally.ConstructorMiscounted: the model uses V8's text for a built-in function ("function Object() { [native code] }"). Section 20.2.3.5 of ECMA-262 leaves that text implementation-defined. SpiderMonkey and JavaScriptCore spread it over three lines, so in those browsers the exact string differs. In every engine the count becomes a string and not a number, as `JsTally.Step` states (`o[c].Str?`). The same choice is made in `JsTally.PlusOne`.
- Tally.Bump: the page's `+ 1` on a count is likewise exact only below 2^53, and the model's counts are unbounded. The same holds for `JsTally.PlusOne`.

- Rendering, `useState`/`useEffect` plumbing, routing and redirects, and alerts are not modelled. A missing voter email is modelled as an empty email field.
- The login forms (src/app/page.tsx, src/app/admin/page.tsx) are not modelled. The admin form only calls its route and redirects. After a valid check-email reply, the voter form (src/app/page.tsx:27-38) stores the typed email as `userEmail` in sessionStorage, and an `isAdmin` flag. The flag is always "false", because check-email returns no `isAdmin` field. The form then redirects. That stored email is what `Ballot.Load` receives as `storedEmail`.
- Supabase client construction, hard-coded keys and environment loading are not modelled. Every store request's outcome is an argument.
- The id filter `gt("id", "00000000-…")` on the delete-all requests is modelled as deleting every row.
- JSON parsing of localStorage and sessionStorage is not modelled. `votedData` is an already-parsed map, and an absent entry is the empty map, which behaves identically. A malformed value, which would throw in the submit handler, is not modelled.
- Ballot.Load: does not model a `votedData` value whose post entry is not an object. Object-prototype names used as posts or emails in `votedData` are not modelled either.
- Ballot.Submit: treats every post and email as an ordinary key. With a post named "__proto__" or "constructor", the page's `votedData[role][email] = selectedCandidate` (src/app/dashboard/page.tsx:109) writes onto `Object.prototype` or `Object`. `JSON.stringify` then saves no such entry, so the vote is lost while hasVoted still becomes true. The model records the choice instead.
- `NODE_ENV`, and the cookie attributes `httpOnly`, `secure` and `path`, are not modelled. They do not change which cookies later requests carry.
- Request bodies whose fields are not strings (numbers, objects) are not modelled.
- CheckEmail.Check: a body without an `email` field is not modelled. Only a parse failure and a string email are.
- The voter dashboard's logout button (src/app/dashboard/page.tsx:121-124) is not modelled. It removes `userEmail` from sessionStorage and redirects. The `isAdmin` entry the voter form wrote stays. The button does not call `/api/logout`, so the `userEmail` cookie stays and verify-user still answers valid, unlike after `Logout.LogoutRevokes`.
- Concurrency between admins or voters is not modelled. Each handler is one sequential transition.
- Version-stamp validation of admin cookies, privilege checks on admin actions, and inserting ballots into `votes` are not modelled, because the code has none of them.
- Ballots cast through other clients or browsers are not modelled. `votedData` is per browser, so the one-choice guard holds only within one ledger.

=== FILE: admin_dash.dfy ===
/** The admin dashboard as a state machine. Its page state (the post being
    voted on, the candidate-name input, the candidate list, the displayed
    results) and the store move together; each handler is one transition,
    and what each store request returned is an argument. */
module AdminDash {
  import opened Basics
  import opened Store
  import JsString
  import Tally
  import JsTally

  /** The dashboard's React state. */
  datatype View = View(
    role: string,
    candidateName: string,
    candidates: seq<string>,
    results: map<string, nat>)

  datatype Page = Page(view: View, db: Db)

  /** The state right after mount, before the load effect has run. */
  const Initial: View := View("", "", [], map[])

  /** What each of the load effect's store requests returned. */
  datatype LoadReplies = LoadReplies(
    selectElections: Reply,
    insertDefault: Reply,
    deleteDuplicates: Reply,
    selectCandidates: Reply)

  /** The page's tables other than `elections` are those of `p`. */
  predicate SameOtherTables(p: Db, q: Db)
  {
    q.candidates == p.candidates && q.votes == p.votes && q.emails == p.emails
  }

  /** Step (B) of the load effect: show the `candidates` table, unless the
      request failed. */
  function LoadCandidates(p: Page, reply: Reply): (q: Page)
    ensures q.db == p.db
    ensures q.view.role == p.view.role && q.view.results == p.view.results
    ensures q.view.candidates == if reply.Ok? then p.db.candidates else p.view.candidates
  {
    if reply.Failed? then p else p.(view := p.view.(candidates := p.db.candidates))
  }

  /** The load effect. With no election row it inserts one holding the empty
      post; with one or more it shows the first row's post and deletes the
      others (ignoring whether that delete succeeded); then it fetches the
      candidates. A failed fetch or insert of elections ends the effect. */
  function Load(p: Page, replies: LoadReplies): (q: Page)
    requires Valid(p.db)
    ensures Valid(q.db)
    ensures SameOtherTables(p.db, q.db)
    ensures replies.selectElections.Failed? ==> q == p
    ensures replies.selectElections.Ok? && |p.db.elections| == 0 ==>
      if replies.insertDefault.Failed? then q == p
      else |q.db.elections| == 1 && q.db.elections[0].election == Some("") && q.view.role == ""
    ensures replies.selectElections.Ok? && |p.db.elections| >= 1 ==>
      && q.view.role == OrEmpty(p.db.elections[0].election)
      && q.db.elections == (if |p.db.elections| == 1 || replies.deleteDuplicates.Ok?
                            then [p.db.elections[0]] else p.db.elections)
    ensures replies.selectElections.Ok? && (|p.db.elections| >= 1 || replies.insertDefault.Ok?) ==>
      q.view.candidates == if replies.selectCandidates.Ok? then p.db.candidates else p.view.candidates
    ensures q.view.results == p.view.results && q.view.candidateName == p.view.candidateName
  {
    if replies.selectElections.Failed? then p
    else
      var rows := p.db.elections;
      if |rows| == 0 then
        if replies.insertDefault.Failed? then p
        else
          var db := InsertElection(p.db, "");
          LoadCandidates(Page(p.view.(role := OrEmpty(Some(""))), db), replies.selectCandidates)
      else
        var db :=
          if |rows| > 1 && replies.deleteDuplicates.Ok?
          then p.db.(elections := DeleteIds(rows, Ids(rows[1..])))
          else p.db;
        KeepFirst(rows);
        assert |rows| == 1 ==> rows == [rows[0]];
        LoadCandidates(Page(p.view.(role := OrEmpty(rows[0].election)), db), replies.selectCandidates)
  }

  /** "Save Role": delete every election row, then insert one holding the
      post in the input. A failed delete changes nothing; a failed insert
      leaves the table empty. The shown post stays the entered one. */
  function SaveRole(p: Page, deleteAll: Reply, insert: Reply): (q: Page)
    requires Valid(p.db)
    ensures Valid(q.db)
    ensures SameOtherTables(p.db, q.db)
    ensures q.view == p.view
    ensures deleteAll.Failed? ==> q == p
    ensures deleteAll.Ok? && insert.Failed? ==> q.db.elections == []
    ensures deleteAll.Ok? && insert.Ok? ==>
      |q.db.elections| == 1 && q.db.elections[0].election == Some(p.view.role)
  {
    if deleteAll.Failed? then p
    else
      var cleared := p.db.(elections := []);
      if insert.Failed? then p.(db := cleared)
      else
        var db := InsertElection(cleared, p.view.role);
        Page(p.view.(role := OrEmpty(Some(p.view.role))), db)
  }

  /** "Add Candidate": trim the input; a blank name does nothing. Otherwise
      the input is cleared and, if the insert succeeds, the trimmed name is
      appended to both the table and the shown list (duplicates included). */
  function AddCandidate(p: Page, insert: Reply): (q: Page)
    ensures q.db.elections == p.db.elections && q.db.nextId == p.db.nextId
    ensures q.db.votes == p.db.votes && q.db.emails == p.db.emails
    ensures q.view.role == p.view.role && q.view.results == p.view.results
    ensures JsString.AllWhitespace(p.view.candidateName) ==> q == p
    ensures !JsString.AllWhitespace(p.view.candidateName) ==>
      var name := JsString.Trim(p.view.candidateName);
      && name != ""
      && q.view.candidateName == ""
      && (insert.Failed? ==> q.view.candidates == p.view.candidates && q.db == p.db)
      && (insert.Ok? ==>
            && q.view.candidates == p.view.candidates + [name]
            && q.db.candidates == p.db.candidates + [name])
  {
    var trimmed := JsString.Trim(p.view.candidateName);
    if trimmed == "" then p
    else
      var cleared := p.view.(candidateName := "");
      if insert.Failed? then Page(cleared, p.db)
      else
        Page(cleared.(candidates := cleared.candidates + [trimmed]),
             p.db.(candidates := p.db.candidates + [trimmed]))
  }

  /** "Remove": delete every row naming `cand`; on success drop every copy of
      it from the list as well, keeping the rest in order. */
  function RemoveCandidate(p: Page, cand: string, delete: Reply): (q: Page)
    ensures delete.Failed? ==> q == p
    ensures delete.Ok? ==>
      && q.view == p.view.(candidates := Without(p.view.candidates, cand))
      && q.db == p.db.(candidates := Without(p.db.candidates, cand))
      && cand !in q.view.candidates && cand !in q.db.candidates
      && multiset(q.view.candidates) == multiset(p.view.candidates)[cand := 0]
  {
    WithoutCounts(p.view.candidates, cand);
    WithoutIdempotent(p.view.candidates, cand);
    WithoutIdempotent(p.db.candidates, cand);
    if delete.Failed? then p
    else
      Page(p.view.(candidates := Without(p.view.candidates, cand)),
           p.db.(candidates := Without(p.db.candidates, cand)))
  }

  /** "Reset Attendance Table": delete every `emails` row. */
  function ResetAttendance(p: Page, delete: Reply): (q: Page)
    ensures q.view == p.view
    ensures delete.Failed? ==> q == p
    ensures delete.Ok? ==> q.db == p.db.(emails := [])
  {
    if delete.Failed? then p else p.(db := p.db.(emails := []))
  }

  /** "Show Current Results": with a post set and the query answered, the
      results map each candidate named by a vote row for the post to the
      number of such rows; otherwise they are empty. Nothing else changes. */
  function ShowResults(p: Page, select: Reply): (q: Page)
    ensures q.db == p.db
    ensures q.view == p.view.(results := q.view.results)
    ensures p.view.role == "" || select.Failed? ==> q.view.results == map[]
    ensures p.view.role != "" && select.Ok? ==>
      forall c :: && (c in q.view.results <==> VoteRow(p.view.role, c) in p.db.votes)
                  && (c in q.view.results ==>
                        q.view.results[c] == multiset(p.db.votes)[VoteRow(p.view.role, c)])
  {
    if p.view.role == "" then p.(view := p.view.(results := map[]))
    else if select.Failed? then p.(view := p.view.(results := map[]))
    else
      var rows := VotesFor(p.db.votes, p.view.role);
      if |rows| == 0 then p.(view := p.view.(results := map[]))
      else p.(view := p.view.(results := Tally.Tally(rows)))
  }

  /** "Reset All Voting Data": on success the `votes` table is empty and so
      are the shown results; on failure nothing changes. */
  function ResetVotes(p: Page, delete: Reply): (q: Page)
    ensures delete.Failed? ==> q == p
    ensures delete.Ok? ==>
      && q.db == p.db.(votes := [])
      && q.view == p.view.(results := map[])
  {
    if delete.Failed? then p else Page(p.view.(results := map[]), p.db.(votes := []))
  }

  // ---------------------------------------------------------------------------
  // Properties relating several transitions
  // ---------------------------------------------------------------------------

  /** The displayed counts add up to the number of vote rows for the post. */
  lemma ResultsSumToVotes(p: Page, select: Reply)
    requires p.view.role != "" && select.Ok?
    ensures Tally.Sum(ShowResults(p, select).view.results) == |VotesFor(p.db.votes, p.view.role)|
  {
    Tally.TallySum(VotesFor(p.db.votes, p.view.role));
  }

  /** When no fetched name is named like an inherited object member, the
      shown counts are exactly the numbers the page's loop, as JavaScript runs
      it, leaves in its result object. */
  lemma ShowResultsAsWritten(p: Page, select: Reply)
    requires p.view.role != "" && select.Ok?
    requires forall c :: c in VotesFor(p.db.votes, p.view.role) ==> JsTally.Ordinary(c)
    ensures JsTally.AsNumbers(ShowResults(p, select).view.results)
         == JsTally.TallyAsWritten(VotesFor(p.db.votes, p.view.role))
  {
    var rows := VotesFor(p.db.votes, p.view.role);
    assert forall k :: 0 <= k < |rows| ==> rows[k] in rows;
    JsTally.AgreesOnOrdinaryNames(rows);
  }

  /** A freshly mounted dashboard on a store without election rows, with
      every request succeeding, creates the single row for the empty post and
      shows the stored candidates, with nothing else set. */
  lemma FirstLoad(db: Db, replies: LoadReplies)
    requires Valid(db) && db.elections == []
    requires replies.selectElections.Ok? && replies.insertDefault.Ok? && replies.selectCandidates.Ok?
    ensures var q := Load(Page(Initial, db), replies);
      && q.view == Initial.(candidates := db.candidates)
      && q.db.elections == [ElectionRow(db.nextId, Some(""))]
  {
  }

  /** Loading twice with every request succeeding leaves the same single
      election row as loading once: the collapse is idempotent. */
  lemma LoadIdempotent(p: Page, replies: LoadReplies)
    requires Valid(p.db)
    requires replies.selectElections.Ok? && replies.insertDefault.Ok? && replies.deleteDuplicates.Ok?
    ensures var q := Load(p, replies);
      && |q.db.elections| == 1
      && Load(q, replies).db == q.db
      && Load(q, replies).view.role == q.view.role
  {
  }

  /** After a successful reset, showing results always yields nothing. */
  lemma ResetThenShowIsEmpty(p: Page, delete: Reply, select: Reply)
    requires delete.Ok?
    ensures ShowResults(ResetVotes(p, delete), select).view.results == map[]
  {
  }

  /** Adding a name already in the list is not refused: it then appears once
      more. */
  lemma AddKeepsDuplicates(p: Page, insert: Reply)
    requires insert.Ok? && !JsString.AllWhitespace(p.view.candidateName)
    ensures var name := JsString.Trim(p.view.candidateName);
      multiset(AddCandidate(p, insert).view.candidates)[name] == multiset(p.view.candidates)[name] + 1
  {
  }

  /** Saving the post and then loading, with every request succeeding, shows
      the saved post again from a single row. */
  lemma SaveThenLoad(p: Page, deleteAll: Reply, insert: Reply, replies: LoadReplies)
    requires Valid(p.db)
    requires deleteAll.Ok? && insert.Ok? && replies.selectElections.Ok?
    ensures var q := Load(SaveRole(p, deleteAll, insert), replies);
      && |q.db.elections| == 1
      && q.view.role == p.view.role
  {
  }
}

=== FILE: admin_login.dfy ===
/** `POST /api/admin-login`: compare the submitted name and password with the
    configured ones and, on a match, set the `isAdmin` cookie. */
module AdminLogin {
  import opened Basics
  import opened Cookies
  import VerifyAdmin

  /** The parsed request body; a field the client left out is `None`. */
  datatype Body = Body(adminName: Option<string>, adminPassword: Option<string>)

  /** `ADMIN_USERNAME` and `ADMIN_PASSWORD`, each possibly unset. */
  datatype Config = Config(username: Option<string>, password: Option<string>)

  datatype LoginReply = LoginReply(status: nat, success: bool, message: Option<string>, cookies: seq<SetCookie>)

  const InvalidCredentials := "Invalid admin credentials"
  const InternalError := "Internal server error"

  /** Strict equality of two possibly-undefined values, as `===` compares
      them: two undefined values are equal. */
  predicate StrictEquals(a: Option<string>, b: Option<string>)
  {
    a == b
  }

  /** The handler. `body` is `None` when the request body could not be
      parsed. Success exactly when both fields strictly equal the configured
      values: status 200 and the cookie `isAdmin=true`. A mismatch gives 401,
      a parse failure 500, and neither sets a cookie. */
  function Login(body: Option<Body>, config: Config): (r: LoginReply)
    ensures r.success <==>
      body.Some? && body.value.adminName == config.username && body.value.adminPassword == config.password
    ensures r.success ==> r.status == 200 && r.cookies == [SetCookie("isAdmin", "true", None)] && r.message == None
    ensures !r.success ==> r.cookies == []
    ensures body.None? ==> r.status == 500 && r.message == Some(InternalError)
    ensures body.Some? && !r.success ==> r.status == 401 && r.message == Some(InvalidCredentials)
  {
    match body
    case None => LoginReply(500, false, Some(InternalError), [])
    case Some(b) =>
      if StrictEquals(b.adminName, config.username) && StrictEquals(b.adminPassword, config.password) then
        LoginReply(200, true, None, [SetCookie("isAdmin", "true", None)])
      else
        LoginReply(401, false, Some(InvalidCredentials), [])
  }

  /** A wrong name and a wrong password are answered identically. */
  lemma FailureUninformative(b1: Body, b2: Body, config: Config)
    requires !Login(Some(b1), config).success && !Login(Some(b2), config).success
    ensures Login(Some(b1), config) == Login(Some(b2), config)
  {
  }

  /** With nothing configured, a body without either field logs in. */
  lemma UnsetConfigAdmitsEmptyBody()
    ensures Login(Some(Body(None, None)), Config(None, None)).success
  {
  }

  /** After a successful login the browser's next verify-admin call finds an
      admin. */
  lemma LoginThenVerify(body: Option<Body>, config: Config, jar: Jar)
    requires Login(body, config).success
    ensures VerifyAdmin.Verify(Apply(jar, Login(body, config).cookies)).isAdmin
  {
  }
}

=== FILE: admin_session.dfy ===
/** The process-wide admin session version and `POST /api/logout-all`, the
    one caller that advances it. */
module AdminSession {

  /** The value of `adminSessionVersion`. */
  datatype Counter = Counter(version: nat)

  /** The value when the server process starts. */
  const Start: Counter := Counter(1)

  /** `incrementAdminSession`. */
  function Increment(c: Counter): (d: Counter)
    ensures d.version == c.version + 1
  {
    Counter(c.version + 1)
  }

  datatype LogoutAllReply = LogoutAllReply(success: bool)

  /** `POST /api/logout-all`: one increment, then success. */
  function LogoutAll(c: Counter): (r: (Counter, LogoutAllReply))
    ensures r.0.version == c.version + 1
    ensures r.1.success
  {
    (Increment(c), LogoutAllReply(true))
  }

  /** The counter after `n` logout-all requests. */
  function Run(c: Counter, n: nat): (d: Counter)
    ensures n == 0 ==> d == c
    ensures n > 0 ==> d.version > c.version
    decreases n
  {
    if n == 0 then c else Run(LogoutAll(c).0, n - 1)
  }

  /** Each request adds exactly one. */
  lemma {:induction false} RunAdds(c: Counter, n: nat)
    ensures Run(c, n).version == c.version + n
    decreases n
  {
    if n > 0 {
      RunAdds(LogoutAll(c).0, n - 1);
    }
  }

  /** From start-up, `n` requests leave the version at `1 + n`. */
  lemma FromStart(n: nat)
    ensures Run(Start, n).version == 1 + n
  {
    RunAdds(Start, n);
  }

  /** The version never goes down: more requests, a version at least as
      high. */
  lemma Monotonic(c: Counter, m: nat, n: nat)
    requires m <= n
    ensures Run(c, m).version <= Run(c, n).version
  {
    RunAdds(c, m);
    RunAdds(c, n);
  }
}

=== FILE: ballot.dfy ===
/** The voter dashboard's ballot ledger: `votedData`, a nested map
    post -> email -> chosen candidate kept in the browser's storage, and the
    guard that lets a (post, email) pair record at most one choice. */
module Ballot {
  import opened Basics

  /** `votedData` once parsed. An absent storage entry behaves as `{}`. */
  type VotedData = map<string, map<string, string>>

  /** The choice recorded for (post, email), if any. */
  function Lookup(vd: VotedData, post: string, email: string): (r: Option<string>)
    ensures r.Some? <==> post in vd && email in vd[post]
    ensures r.Some? ==> r.value == vd[post][email]
  {
    if post in vd && email in vd[post] then Some(vd[post][email]) else None
  }

  /** Every recorded choice names a candidate. */
  predicate WellFormed(vd: VotedData)
  {
    forall post | post in vd :: forall email | email in vd[post] :: vd[post][email] != ""
  }

  /** The voter dashboard's React state. */
  datatype Voter = Voter(
    email: string,
    role: string,
    candidates: seq<string>,
    selected: string,
    hasVoted: bool)

  /** The load effects: read the signed-in email and the post from storage
      and set `hasVoted` when this email already has a truthy choice for a
      non-empty post. A missing email leaves the email field empty (the page
      then redirects to the sign-in form). */
  function Load(storedEmail: Option<string>, storedRole: Option<string>,
                storedCandidates: Option<seq<string>>, vd: VotedData): (v: Voter)
    ensures v.role == OrEmpty(storedRole) && v.email == OrEmpty(storedEmail)
    ensures v.selected == ""
    ensures v.hasVoted <==>
      && OrEmpty(storedRole) != ""
      && OrEmpty(storedEmail) != ""
      && Truthy(Lookup(vd, OrEmpty(storedRole), OrEmpty(storedEmail)))
  {
    var role := OrEmpty(storedRole);
    var email := OrEmpty(storedEmail);
    var voted := role != "" && Truthy(storedEmail) && role in vd && Truthy(Lookup(vd, role, email));
    Voter(email, role, storedCandidates.GetOr([]), "", voted)
  }

  /** Why a submission was turned away, or that it was recorded. */
  datatype Outcome = NoRole | NoCandidate | AlreadyVoted | Recorded

  datatype Submission = Submission(voter: Voter, ledger: VotedData, outcome: Outcome)

  /** The submit handler. Without a post or a selection it refuses; if the
      pair (post, email) already holds a truthy choice it refuses and marks the
      voter as having voted; otherwise it records the selection for the pair. */
  function Submit(v: Voter, vd: VotedData): (s: Submission)
    ensures s.outcome == NoRole <==> v.role == ""
    ensures s.outcome == NoCandidate <==> v.role != "" && v.selected == ""
    ensures s.outcome == AlreadyVoted <==>
      v.role != "" && v.selected != "" && Truthy(Lookup(vd, v.role, v.email))
    ensures s.outcome != Recorded ==> s.ledger == vd
    ensures s.outcome in {NoRole, NoCandidate} ==> s.voter == v
    ensures s.outcome in {AlreadyVoted, Recorded} ==> s.voter == v.(hasVoted := true)
    ensures s.outcome == Recorded ==>
      && Lookup(s.ledger, v.role, v.email) == Some(v.selected)
      && forall post, email :: (post, email) != (v.role, v.email) ==>
           Lookup(s.ledger, post, email) == Lookup(vd, post, email)
  {
    if v.role == "" then Submission(v, vd, NoRole)
    else if v.selected == "" then Submission(v, vd, NoCandidate)
    else
      var forRole := if v.role in vd then vd[v.role] else map[];
      if v.email in forRole && forRole[v.email] != "" then
        Submission(v.(hasVoted := true), vd, AlreadyVoted)
      else
        Submission(v.(hasVoted := true), vd[v.role := forRole[v.email := v.selected]], Recorded)
  }

  /** Recording keeps every stored choice non-empty. */
  lemma SubmitKeepsWellFormed(v: Voter, vd: VotedData)
    requires WellFormed(vd)
    ensures WellFormed(Submit(v, vd).ledger)
  {
  }

  /** Once a pair has recorded a choice, every later submission for the same
      pair is refused whatever candidate it selects, and the ledger stays. */
  lemma SecondSubmitRefused(v: Voter, vd: VotedData, w: Voter)
    requires Submit(v, vd).outcome == Recorded
    requires w.role == v.role && w.email == v.email && w.selected != ""
    ensures var first := Submit(v, vd).ledger;
      && Submit(w, first).outcome == AlreadyVoted
      && Submit(w, first).ledger == first
      && Lookup(first, v.role, v.email) == Some(v.selected)
  {
  }

  /** In a well-formed ledger, a pair that holds an entry at all refuses every
      submission: at most one choice is ever recorded per (post, email). */
  lemma OneChoicePerPair(v: Voter, vd: VotedData)
    requires WellFormed(vd)
    requires v.role != "" && v.selected != "" && Lookup(vd, v.role, v.email).Some?
    ensures Submit(v, vd).outcome == AlreadyVoted
    ensures Submit(v, vd).ledger == vd
  {
  }

  /** Reloading the page after a recorded vote shows the voter as having
      voted. */
  lemma ReloadAfterVote(v: Voter, vd: VotedData, storedCandidates: Option<seq<string>>)
    requires Submit(v, vd).outcome == Recorded && v.email != ""
    ensures Load(Some(v.email), Some(v.role), storedCandidates, Submit(v, vd).ledger).hasVoted
  {
  }
}

=== FILE: basics.dfy ===
/** Shared vocabulary: optional values (JavaScript `undefined`/`null`) and the
    outcome of one call into the backing store. */
module Basics {

  /** A value that may be absent, as a possibly-undefined JavaScript field is. */
  datatype Option<+T> = None | Some(value: T) {

    /** The value, or `default` when absent (JavaScript `x ?? default`). */
    function GetOr(default: T): (r: T)
      ensures Some? ==> r == value
      ensures None? ==> r == default
    {
      match this
      case Some(v) => v
      case None => default
    }
  }

  /** What one store request returned: success, or an error object. The
      store's own message is kept only so that failures stay distinguishable. */
  datatype Reply = Ok | Failed(message: string)

  /** JavaScript truthiness of a possibly-absent string: absent and "" are falsy. */
  predicate Truthy(s: Option<string>)
  {
    s.Some? && s.value != ""
  }

  /** JavaScript `s || ""` on a possibly-absent string. */
  function OrEmpty(s: Option<string>): (r: string)
    ensures Truthy(s) <==> r != ""
    ensures Truthy(s) ==> r == s.value
  {
    if Truthy(s) then s.value else ""
  }

  /** Drop every element equal to `x`, keeping the others in their order
      (JavaScript `xs.filter((c) => c !== x)`). */
  function Without<T(==,!new)>(xs: seq<T>, x: T): (r: seq<T>)
    ensures forall y :: y in r <==> y in xs && y != x
    ensures |r| <= |xs|
  {
    if |xs| == 0 then []
    else if xs[0] == x then Without(xs[1..], x)
    else [xs[0]] + Without(xs[1..], x)
  }

  /** Filtering removes exactly the copies of `x` and no other element. */
  lemma {:induction false} WithoutCounts<T(!new)>(xs: seq<T>, x: T)
    ensures multiset(Without(xs, x)) == multiset(xs)[x := 0]
  {
    if |xs| == 0 {
    } else {
      WithoutCounts(xs[1..], x);
      assert xs == [xs[0]] + xs[1..];
    }
  }

  /** After filtering, `x` no longer occurs, so filtering a second time
      changes nothing. */
  lemma {:induction false} WithoutIdempotent<T(!new)>(xs: seq<T>, x: T)
    ensures Without(Without(xs, x), x) == Without(xs, x)
    ensures x !in Without(xs, x)
  {
    if |xs| == 0 {
    } else {
      WithoutIdempotent(xs[1..], x);
      if xs[0] != x {
        var rest := Without(xs[1..], x);
        assert ([xs[0]] + rest)[1..] == rest;
      }
    }
  }

  /** Filtering a concatenation filters each part. */
  lemma {:induction false} WithoutAppend<T(!new)>(xs: seq<T>, ys: seq<T>, x: T)
    ensures Without(xs + ys, x) == Without(xs, x) + Without(ys, x)
  {
    if |xs| == 0 {
      assert xs + ys == ys;
    } else {
      WithoutAppend(xs[1..], ys, x);
      var zs := xs + ys;
      assert zs[0] == xs[0] && zs[1..] == xs[1..] + ys;
      var rest := Without(xs[1..], x) + Without(ys, x);
      if xs[0] == x {
        assert Without(zs, x) == Without(zs[1..], x);
      } else {
        assert Without(zs, x) == [xs[0]] + rest;
        assert Without(xs, x) == [xs[0]] + Without(xs[1..], x);
      }
    }
  }
}

=== FILE: check_email.dfy ===
/** `POST /api/check-email`: a voter signs in by giving an email that is in
    the `emails` table; the route then sets the `userEmail` cookie. */
module CheckEmail {
  import opened Basics
  import opened Cookies
  import VerifyUser

  datatype EmailReply = EmailReply(status: nat, valid: bool, error: Option<string>, cookies: seq<SetCookie>)

  const DatabaseError := "Database error occurred."
  const NotFound := "Email not found in the list."
  const BadRequest := "Bad request."

  /** The handler. `email` is `None` when the body could not be parsed (400);
      `select` is what the `emails` query returned (failure: 500). Valid
      exactly when some row equals the email: status 200 and the cookie
      `userEmail` set to that email. No match: 404. Only a valid reply sets a
      cookie. */
  function Check(email: Option<string>, emails: seq<string>, select: Reply): (r: EmailReply)
    ensures r.valid <==> email.Some? && select.Ok? && email.value in emails
    ensures r.valid ==> r.status == 200 && r.cookies == [SetCookie("userEmail", email.value, None)] && r.error == None
    ensures !r.valid ==> r.cookies == []
    ensures email.None? ==> r.status == 400 && r.error == Some(BadRequest)
    ensures email.Some? && select.Failed? ==> r.status == 500 && r.error == Some(DatabaseError)
    ensures email.Some? && select.Ok? && email.value !in emails ==> r.status == 404 && r.error == Some(NotFound)
  {
    match email
    case None => EmailReply(400, false, Some(BadRequest), [])
    case Some(e) =>
      if select.Failed? then EmailReply(500, false, Some(DatabaseError), [])
      else
        var matches := Matching(emails, e);
        if |matches| > 0 then EmailReply(200, true, None, [SetCookie("userEmail", e, None)])
        else EmailReply(404, false, Some(NotFound), [])
  }

  /** `select("*").eq("email", e)`: the rows equal to `e`. */
  function Matching(emails: seq<string>, e: string): (r: seq<string>)
    ensures |r| > 0 <==> e in emails
    ensures forall x :: x in r ==> x == e
  {
    if |emails| == 0 then []
    else
      var rest := Matching(emails[1..], e);
      assert e in emails <==> emails[0] == e || e in emails[1..];
      if emails[0] == e then [emails[0]] + rest else rest
  }

  /** After a successful check the voter is signed in as that email, unless
      the listed email is the empty string, which verify-user treats as
      signed out. */
  lemma CheckThenVerify(email: Option<string>, emails: seq<string>, select: Reply, jar: Jar)
    requires Check(email, emails, select).valid
    ensures var v := VerifyUser.Verify(Apply(jar, Check(email, emails, select).cookies));
      && (v.valid <==> email.value != "")
      && (v.valid ==> v.email == email)
  {
  }
}

=== FILE: cookies.dfy ===
/** Cookies: the jar a request carries, and the `Set-Cookie` instructions a
    response sends back, applied the way a browser applies them. */
module Cookies {
  import opened Basics

  /** Cookie name -> value, as sent with a request. */
  type Jar = map<string, string>

  /** `request.cookies.get(name)?.value`. */
  function Get(jar: Jar, name: string): (r: Option<string>)
    ensures r.Some? <==> name in jar
    ensures r.Some? ==> r.value == jar[name]
  {
    if name in jar then Some(jar[name]) else None
  }

  /** One `response.cookies.set(name, value, { maxAge })`; other attributes
      (path, httpOnly, secure) do not affect what later requests carry. */
  datatype SetCookie = SetCookie(name: string, value: string, maxAge: Option<nat>)

  /** The jar after the browser processes `sets` in order: a cookie with
      max-age 0 is removed, any other is stored. */
  function Apply(jar: Jar, sets: seq<SetCookie>): (j: Jar)
    ensures forall n :: (forall k :: 0 <= k < |sets| ==> sets[k].name != n) ==> Get(j, n) == Get(jar, n)
    decreases |sets|
  {
    if |sets| == 0 then jar
    else
      var s := sets[0];
      var next := if s.maxAge == Some(0) then jar - {s.name} else jar[s.name := s.value];
      Apply(next, sets[1..])
  }

  /** The last instruction for a name decides what the jar holds for it. */
  lemma {:induction false} ApplyLast(jar: Jar, sets: seq<SetCookie>, k: nat)
    requires k < |sets|
    requires forall i :: k < i < |sets| ==> sets[i].name != sets[k].name
    ensures Get(Apply(jar, sets), sets[k].name) ==
      if sets[k].maxAge == Some(0) then None else Some(sets[k].value)
    decreases |sets|
  {
    var s := sets[0];
    var next := if s.maxAge == Some(0) then jar - {s.name} else jar[s.name := s.value];
    if k == 0 {
      assert forall i :: 0 <= i < |sets[1..]| ==> sets[1..][i].name != s.name;
    } else {
      ApplyLast(next, sets[1..], k - 1);
    }
  }
}

=== FILE: js_string.dfy ===
/** `String.prototype.trim` as ECMAScript defines it: strip the WhiteSpace and
    LineTerminator code points (section 12.2 and 12.3 of ECMA-262) from both
    ends of a string. The admin dashboard trims a candidate name with it. */
module JsString {

  /** ECMAScript WhiteSpace (TAB, VT, FF, ZWNBSP and every Unicode "Zs" space)
      or LineTerminator (LF, CR, LS, PS). */
  predicate IsWhitespace(c: char)
  {
    c in Whitespace
  }

  const Whitespace: set<char> := {
    '\t', '\n', '\U{000B}', '\U{000C}', '\r', ' ', '\U{00A0}', '\U{1680}',
    '\U{2000}', '\U{2001}', '\U{2002}', '\U{2003}', '\U{2004}', '\U{2005}',
    '\U{2006}', '\U{2007}', '\U{2008}', '\U{2009}', '\U{200A}',
    '\U{2028}', '\U{2029}', '\U{202F}', '\U{205F}', '\U{3000}', '\U{FEFF}'}

  /** Every character of `s` is whitespace. */
  predicate AllWhitespace(s: string)
    decreases |s|
  {
    |s| == 0 || (IsWhitespace(s[0]) && AllWhitespace(s[1..]))
  }

  lemma {:induction false} AllWhitespaceAppend(a: string, b: string)
    requires AllWhitespace(a) && AllWhitespace(b)
    ensures AllWhitespace(a + b)
    decreases |a|
  {
    if |a| > 0 {
      AllWhitespaceAppend(a[1..], b);
      assert (a + b)[1..] == a[1..] + b;
    } else {
      assert a + b == b;
    }
  }

  lemma {:induction false} AllWhitespaceDrop(s: string, i: nat)
    requires AllWhitespace(s) && i <= |s|
    ensures AllWhitespace(s[i..])
    decreases i
  {
    if i > 0 {
      AllWhitespaceDrop(s[1..], i - 1);
      assert s[1..][i - 1..] == s[i..];
    }
  }

  /** Strip leading whitespace: the result is a suffix of `s`, what was cut
      off is all whitespace, and the result does not start with whitespace. */
  function TrimStart(s: string): (r: string)
    ensures |r| <= |s| && r == s[|s| - |r|..]
    ensures AllWhitespace(s[..|s| - |r|])
    ensures |r| > 0 ==> !IsWhitespace(r[0])
    decreases |s|
  {
    if |s| > 0 && IsWhitespace(s[0]) then
      var r := TrimStart(s[1..]);
      assert s[..|s| - |r|][1..] == s[1..][..|s| - 1 - |r|];
      r
    else
      assert s[..0] == [];
      s
  }

  /** Strip trailing whitespace: the result is a prefix of `s`, what was cut
      off is all whitespace, and the result does not end with whitespace. */
  function TrimEnd(s: string): (r: string)
    ensures |r| <= |s| && r == s[..|r|]
    ensures AllWhitespace(s[|r|..])
    ensures |r| > 0 ==> !IsWhitespace(r[|r| - 1])
    decreases |s|
  {
    if |s| > 0 && IsWhitespace(s[|s| - 1]) then
      var init := s[..|s| - 1];
      var r := TrimEnd(init);
      var last := [s[|s| - 1]];
      assert AllWhitespace(last) by {
        assert last[1..] == [];
      }
      AllWhitespaceAppend(init[|r|..], last);
      assert s[|r|..] == init[|r|..] + last;
      r
    else
      assert s[|s|..] == [];
      s
  }

  /** `s.trim()`: empty exactly when `s` is blank; otherwise neither end of the
      result is whitespace. */
  function Trim(s: string): (r: string)
    ensures r == "" <==> AllWhitespace(s)
    ensures |r| > 0 ==> !IsWhitespace(r[0]) && !IsWhitespace(r[|r| - 1])
  {
    var t := TrimStart(s);
    var r := TrimEnd(t);
    BlankParts(s, |s| - |t|, t, r);
    r
  }

  /** With a blank prefix `s[..i]` and a rest `t` that does not start with
      whitespace, a prefix `r` of the rest that leaves only whitespace behind
      is empty exactly when `s` is blank, and otherwise does not start with
      whitespace either. */
  lemma BlankParts(s: string, i: nat, t: string, r: string)
    requires i <= |s| && t == s[i..] && AllWhitespace(s[..i])
    requires |t| > 0 ==> !IsWhitespace(t[0])
    requires |r| <= |t| && r == t[..|r|] && AllWhitespace(t[|r|..])
    ensures r == "" <==> AllWhitespace(s)
    ensures |r| > 0 ==> !IsWhitespace(r[0])
  {
    assert s == s[..i] + t;
    if r == "" {
      assert t[0..] == t;
      AllWhitespaceAppend(s[..i], t);
    } else if AllWhitespace(s) {
      AllWhitespaceDrop(s, i);
      assert false;
    }
  }

  /** The trimmed string is the middle part of `s` between a whitespace-only
      prefix of length `i` and a whitespace-only suffix. */
  lemma TrimIsInfix(s: string) returns (i: nat)
    ensures i + |Trim(s)| <= |s| && Trim(s) == s[i..i + |Trim(s)|]
    ensures AllWhitespace(s[..i]) && AllWhitespace(s[i + |Trim(s)|..])
  {
    var t := TrimStart(s);
    i := |s| - |t|;
    InfixOfSuffix(s, t, Trim(s), i);
  }

  lemma InfixOfSuffix(s: string, t: string, r: string, i: nat)
    requires i <= |s| && t == s[i..]
    requires |r| <= |t| && r == t[..|r|] && AllWhitespace(t[|r|..])
    ensures r == s[i..i + |r|] && AllWhitespace(s[i + |r|..])
  {
    assert t[|r|..] == s[i + |r|..];
  }

  /** Trimming twice is trimming once. */
  lemma TrimIdempotent(s: string)
    ensures Trim(Trim(s)) == Trim(s)
  {
  }
}

=== FILE: js_tally.dfy ===
/** The results loop of the admin dashboard as JavaScript evaluates it. The
    tally is a plain object literal, so reading a key it does not own falls
    through to `Object.prototype`: for a candidate named like one of its
    members the first "count" is a function or an object, `+ 1` turns it into
    a string, and a write to `__proto__` is dropped. For every other name the
    loop computes `Tally.Tally`. */
module JsTally {
  import Tally

  /** The values a tally slot can hold or read through to. */
  datatype JsValue =
    | Undefined
    | Num(n: int)
    | Str(s: string)
    | NativeFunction(name: string)
    | PrototypeObject

  /** The function-valued members every object literal inherits. */
  const InheritedMethods: set<string> := {
    "constructor", "hasOwnProperty", "isPrototypeOf", "propertyIsEnumerable",
    "toLocaleString", "toString", "valueOf",
    "__defineGetter__", "__defineSetter__", "__lookupGetter__", "__lookupSetter__"}

  /** A name that an object literal neither owns nor inherits. */
  predicate Ordinary(c: string)
  {
    c !in InheritedMethods && c != "__proto__"
  }

  /** `tally[k]`: the own value, else what `Object.prototype` supplies. */
  function Read(own: map<string, JsValue>, k: string): JsValue
  {
    if k in own then own[k]
    else if k == "__proto__" then PrototypeObject
    else if k in InheritedMethods then NativeFunction(if k == "constructor" then "Object" else k)
    else Undefined
  }

  predicate Truthy(v: JsValue)
  {
    match v
    case Undefined => false
    case Num(n) => n != 0
    case Str(s) => s != ""
    case NativeFunction(_) => true
    case PrototypeObject => true
  }

  /** `v || 0`. */
  function OrZero(v: JsValue): (r: JsValue)
    ensures r != Undefined
  {
    if Truthy(v) then v else Num(0)
  }

  /** `v + 1`: numbers add, everything else is converted to a string and
      concatenated with "1". A built-in function is converted with V8's text;
      ECMA-262 leaves that text to the engine. */
  function PlusOne(v: JsValue): JsValue
    requires v != Undefined
  {
    match v
    case Num(n) => Num(n + 1)
    case Str(s) => Str(s + "1")
    case NativeFunction(name) => Str("function " + name + "() { [native code] }1")
    case PrototypeObject => Str("[object Object]1")
  }

  /** `tally[k] = v` for a primitive `v`: assigning a primitive to
      `__proto__` is ignored. */
  function Write(own: map<string, JsValue>, k: string, v: JsValue): map<string, JsValue>
  {
    if k == "__proto__" then own else own[k := v]
  }

  /** One iteration: `tally[cand] = (tally[cand] || 0) + 1`. */
  function Step(own: map<string, JsValue>, c: string): (o: map<string, JsValue>)
    ensures forall k :: k != c ==> (k in o <==> k in own) && (k in own ==> o[k] == own[k])
    ensures c == "__proto__" ==> o == own
    ensures c != "__proto__" ==> c in o
    ensures Ordinary(c) && c !in own ==> o[c] == Num(1)
    ensures c != "__proto__" && c in own && own[c].Num? ==>
      o[c] == Num(own[c].n + 1)
    ensures c in InheritedMethods && c !in own ==> o[c].Str?
  {
    Write(own, c, PlusOne(OrZero(Read(own, c))))
  }

  /** The object the loop leaves behind, as written: it owns a key for every
      fetched name except "__proto__". */
  function TallyAsWritten(s: seq<string>): (m: map<string, JsValue>)
    ensures forall k :: k in m <==> k in s && k != "__proto__"
    decreases |s|
  {
    if |s| == 0 then map[]
    else
      var init := s[..|s| - 1];
      assert s == init + [s[|s| - 1]];
      Step(TallyAsWritten(init), s[|s| - 1])
  }

  /** The intended counts, seen as JavaScript numbers. */
  function AsNumbers(t: map<string, nat>): (m: map<string, JsValue>)
    ensures m.Keys == t.Keys
    ensures forall c :: c in m ==> m[c] == Num(t[c])
  {
    map c | c in t :: Num(t[c])
  }

  /** For an ordinary name one iteration adds one vote, as `Tally.Bump` does. */
  lemma StepAgrees(before: map<string, nat>, c: string)
    requires Ordinary(c)
    ensures Step(AsNumbers(before), c) == AsNumbers(Tally.Bump(before, c))
  {
  }

  /** When no candidate is named like an inherited member, the loop as
      written computes exactly the intended counts. */
  lemma {:induction false} AgreesOnOrdinaryNames(s: seq<string>)
    requires forall k :: 0 <= k < |s| ==> Ordinary(s[k])
    ensures TallyAsWritten(s) == AsNumbers(Tally.Tally(s))
    decreases |s|
  {
    if |s| > 0 {
      var init := s[..|s| - 1];
      assert forall k :: 0 <= k < |init| ==> init[k] == s[k];
      AgreesOnOrdinaryNames(init);
      StepAgrees(Tally.Tally(init), s[|s| - 1]);
    }
  }

  /** A single vote for "constructor" is shown as a string, not as 1. */
  lemma ConstructorMiscounted()
    ensures TallyAsWritten(["constructor"]) == map["constructor" := Str("function Object() { [native code] }1")]
    ensures Tally.Tally(["constructor"]) == map["constructor" := 1]
  {
    assert ["constructor"][..0] == [];
    assert TallyAsWritten(["constructor"]) == Step(map[], "constructor");
    assert Read(map[], "constructor") == NativeFunction("Object");
    assert "function " + "Object" + "() { [native code] }1" == "function Object() { [native code] }1";
    var t := Tally.Tally(["constructor"]);
    assert t.Keys == {"constructor"};
  }

  /** Votes for "__proto__" vanish from the results, however many there are,
      where the intended tally counts them. */
  lemma ProtoVoteLost(s: seq<string>)
    ensures "__proto__" !in TallyAsWritten(s)
    ensures "__proto__" in s ==> Tally.Tally(s)["__proto__"] == multiset(s)["__proto__"] > 0
  {
  }
}

=== FILE: logout.dfy ===
/** `POST /api/logout`: clear the voter and admin cookies. */
module Logout {
  import opened Basics
  import opened Cookies
  import VerifyAdmin
  import VerifyUser

  datatype LogoutReply = LogoutReply(success: bool, cookies: seq<SetCookie>)

  /** Always succeeds, and sets `userEmail` and `isAdmin` to "" with max-age 0
      (which tells the browser to drop them); no other cookie is named. */
  function Logout(): (r: LogoutReply)
    ensures r.success
    ensures forall k :: 0 <= k < |r.cookies| ==>
      r.cookies[k].value == "" && r.cookies[k].maxAge == Some(0) && r.cookies[k].name in {"userEmail", "isAdmin"}
    ensures exists k :: 0 <= k < |r.cookies| && r.cookies[k].name == "userEmail"
    ensures exists k :: 0 <= k < |r.cookies| && r.cookies[k].name == "isAdmin"
  {
    var r := LogoutReply(true, [SetCookie("userEmail", "", Some(0)), SetCookie("isAdmin", "", Some(0))]);
    assert r.cookies[0].name == "userEmail";
    assert r.cookies[1].name == "isAdmin";
    r
  }

  /** After logout both verifiers refuse, and every other cookie, such as
      `adminPrivileges`, keeps its value. */
  lemma LogoutRevokes(jar: Jar)
    ensures var after := Apply(jar, Logout().cookies);
      && !VerifyUser.Verify(after).valid
      && !VerifyAdmin.Verify(after).isAdmin
      && VerifyAdmin.Verify(after).privileges == ""
      && forall n :: n != "userEmail" && n != "isAdmin" ==> Get(after, n) == Get(jar, n)
  {
  }

  /** A client that ignores max-age and keeps the two cookies as "" is
      signed out just the same. */
  lemma EmptyValuesRevoke(jar: Jar)
    ensures var after := jar["userEmail" := ""]["isAdmin" := ""];
      !VerifyUser.Verify(after).valid && !VerifyAdmin.Verify(after).isAdmin
  {
  }
}

=== FILE: store.dfy ===
/** The backing store as the dashboards see it: four tables held as ordered
    sequences of rows. Election rows carry a primary key; the store hands out
    a fresh one on every insert. */
module Store {
  import opened Basics

  /** A row of `elections`: its key and its `election` column (the post),
      which may be null. */
  datatype ElectionRow = ElectionRow(id: nat, election: Option<string>)

  /** A row of `votes`: the post it was cast for and the candidate named. */
  datatype VoteRow = VoteRow(role: string, candidate: string)

  datatype Db = Db(
    elections: seq<ElectionRow>,
    candidates: seq<string>,
    votes: seq<VoteRow>,
    emails: seq<string>,
    nextId: nat)

  /** Primary-key discipline of `elections`: keys are distinct and all below
      the next key the store will hand out. */
  predicate Valid(db: Db)
  {
    && (forall i :: 0 <= i < |db.elections| ==> db.elections[i].id < db.nextId)
    && (forall i, j :: 0 <= i < j < |db.elections| ==> db.elections[i].id != db.elections[j].id)
  }

  /** `insert({ election: post })`: one new row at the end, with a fresh key. */
  function InsertElection(db: Db, post: string): (d: Db)
    requires Valid(db)
    ensures Valid(d)
    ensures d.elections == db.elections + [ElectionRow(db.nextId, Some(post))]
    ensures d.candidates == db.candidates && d.votes == db.votes && d.emails == db.emails
  {
    db.(elections := db.elections + [ElectionRow(db.nextId, Some(post))], nextId := db.nextId + 1)
  }

  /** The keys of some election rows. */
  function Ids(rows: seq<ElectionRow>): (ids: set<nat>)
    ensures forall r :: r in rows ==> r.id in ids
    ensures forall k :: k in ids ==> exists r :: r in rows && r.id == k
  {
    set r | r in rows :: r.id
  }

  /** `delete().in("id", ids)`: the rows whose key is not listed, in order. */
  function DeleteIds(rows: seq<ElectionRow>, ids: set<nat>): (r: seq<ElectionRow>)
    ensures forall x :: x in r <==> x in rows && x.id !in ids
    ensures |r| <= |rows|
  {
    if |rows| == 0 then []
    else if rows[0].id in ids then DeleteIds(rows[1..], ids)
    else [rows[0]] + DeleteIds(rows[1..], ids)
  }

  /** Deleting every key but the first one's, when keys are distinct, leaves
      exactly the first row. */
  lemma {:induction false} KeepFirst(rows: seq<ElectionRow>)
    requires |rows| >= 1
    requires forall i, j :: 0 <= i < j < |rows| ==> rows[i].id != rows[j].id
    ensures DeleteIds(rows, Ids(rows[1..])) == [rows[0]]
  {
    var rest := rows[1..];
    var ids := Ids(rest);
    assert forall j :: 0 <= j < |rest| ==> rest[j] == rows[j + 1];
    assert forall j :: 0 <= j < |rest| ==> rest[j].id != rows[0].id;
    assert rows[0].id !in ids;
    DeleteAllListed(rest, ids);
    assert DeleteIds(rows, ids) == [rows[0]] + DeleteIds(rest, ids);
  }

  /** Rows whose keys are all listed are all deleted. */
  lemma {:induction false} DeleteAllListed(rows: seq<ElectionRow>, ids: set<nat>)
    requires forall r :: r in rows ==> r.id in ids
    ensures DeleteIds(rows, ids) == []
  {
    if |rows| > 0 {
      assert rows[0] in rows;
      DeleteAllListed(rows[1..], ids);
    }
  }

  /** `select("candidate").eq("role", role)` on `votes`: the candidate column
      of the rows for `role`. Each name occurs as often as a vote row for
      (role, name) does. */
  function VotesFor(votes: seq<VoteRow>, role: string): (r: seq<string>)
    ensures forall c :: multiset(r)[c] == multiset(votes)[VoteRow(role, c)]
    ensures |r| <= |votes|
  {
    if |votes| == 0 then []
    else
      var rest := VotesFor(votes[1..], role);
      assert votes == [votes[0]] + votes[1..];
      if votes[0].role == role then [votes[0].candidate] + rest else rest
  }
}

=== FILE: tally.dfy ===
/** Counting votes per candidate, as "Show Current Results" intends: `Tally`
    folds over the candidate names one at a time, as the dashboard's loop
    does, but keeps the counts in a map, so every name counts from 0. Its
    contract ties every entry to the number of occurrences. */
module Tally {

  /** One more vote for `c` (`tally[c] = (tally[c] || 0) + 1` on a map whose
      values are counts). */
  function Bump(t: map<string, nat>, c: string): (b: map<string, nat>)
    ensures c in b && b[c] == (if c in t then t[c] else 0) + 1
    ensures b - {c} == t - {c}
  {
    t[c := if c in t then t[c] + 1 else 1]
  }

  /** The tally of a list of candidate names: a key for exactly the names that
      occur, each mapped to its number of occurrences (so never to 0). */
  function Tally(s: seq<string>): (t: map<string, nat>)
    ensures forall c :: c in t <==> c in s
    ensures forall c :: c in t ==> t[c] == multiset(s)[c] && t[c] > 0
    decreases |s|
  {
    if |s| == 0 then map[]
    else
      var init := s[..|s| - 1];
      var last := s[|s| - 1];
      assert s == init + [last];
      Bump(Tally(init), last)
  }

  /** The dashboard's loop with the counts kept in a map rather than in an
      object literal, which is the intended tally: it computes `Tally`, and
      its counts add up to the number of rows. The loop as JavaScript runs it
      is `JsTally.TallyAsWritten`. */
  method CountVotes(s: seq<string>) returns (t: map<string, nat>)
    ensures t == Tally(s)
    ensures forall c :: c in t <==> c in s
    ensures forall c :: c in t ==> t[c] == multiset(s)[c]
    ensures Sum(t) == |s|
  {
    t := map[];
    var i := 0;
    while i < |s|
      invariant 0 <= i <= |s|
      invariant t == Tally(s[..i])
      invariant Sum(t) == i
    {
      TallyStep(s, i);
      SumBump(t, s[i]);
      t := Bump(t, s[i]);
      i := i + 1;
    }
    assert s[..i] == s;
  }

  /** Extending the tallied prefix by one name is one `Bump`. */
  lemma TallyStep(s: seq<string>, i: nat)
    requires i < |s|
    ensures Tally(s[..i + 1]) == Bump(Tally(s[..i]), s[i])
  {
    assert s[..i + 1][..i] == s[..i];
  }

  /** Some key of a non-empty map. */
  ghost function Pick(m: map<string, nat>): (k: string)
    requires |m| > 0
    ensures k in m
  {
    var k :| k in m.Keys;
    k
  }

  /** Sum of the counts of a map (the order of summation does not matter,
      see `SumRemove`). */
  ghost function Sum(m: map<string, nat>): nat
    decreases |m|
  {
    if |m| == 0 then 0
    else
      var k := Pick(m);
      RemoveSize(m, k);
      m[k] + Sum(m - {k})
  }

  /** Removing a present key shrinks a map by one. */
  lemma RemoveSize(m: map<string, nat>, k: string)
    requires k in m
    ensures |m - {k}| == |m| - 1
  {
  }

  /** Any key may be taken out first. */
  lemma {:induction false} SumRemove(m: map<string, nat>, k: string)
    requires k in m
    ensures Sum(m) == m[k] + Sum(m - {k})
    decreases |m|
  {
    var j := Pick(m);
    if j != k {
      var mj := m - {j};
      var mk := m - {k};
      RemoveSize(m, j);
      RemoveSize(m, k);
      assert k in mj && mj[k] == m[k];
      assert j in mk && mk[j] == m[j];
      SumRemove(mj, k);
      SumRemove(mk, j);
      assert mj - {k} == mk - {j};
    }
  }

  /** One more vote for `c` raises the sum by one. */
  lemma SumBump(t: map<string, nat>, c: string)
    ensures Sum(Bump(t, c)) == Sum(t) + 1
  {
    var b := Bump(t, c);
    SumRemove(b, c);
    if c in t {
      SumRemove(t, c);
    } else {
      assert t - {c} == t;
    }
  }

  /** The counts add up to the number of names tallied. */
  lemma {:induction false} TallySum(s: seq<string>)
    ensures Sum(Tally(s)) == |s|
    decreases |s|
  {
    if |s| > 0 {
      TallySum(s[..|s| - 1]);
      SumBump(Tally(s[..|s| - 1]), s[|s| - 1]);
    }
  }
}

=== FILE: verify_admin.dfy ===
/** `GET /api/verify-admin`: is the requester an admin, and with which
    privilege label? */
module VerifyAdmin {
  import opened Basics
  import opened Cookies

  /** The privilege labels the route lets through, in its own order. */
  const Privileges: seq<string> := ["", "all", "valberedning", "results"]

  /** `cookies.get("adminPrivileges")?.value || ""`, then anything outside the
      list becomes "". */
  function NormalizePrivileges(raw: Option<string>): (p: string)
    ensures p in Privileges
    ensures OrEmpty(raw) in Privileges ==> p == OrEmpty(raw)
    ensures OrEmpty(raw) !in Privileges ==> p == ""
  {
    var p := OrEmpty(raw);
    if p !in Privileges then "" else p
  }

  /** The JSON reply with its HTTP status. */
  datatype AdminStatus = AdminStatus(status: nat, isAdmin: bool, privileges: string)

  /** Admin exactly when the `isAdmin` cookie is the string "true"; an admin
      is told its normalised privileges with status 200, anyone else gets
      privileges "" and status 401, whatever their privileges cookie says. */
  function Verify(jar: Jar): (r: AdminStatus)
    ensures r.isAdmin <==> Get(jar, "isAdmin") == Some("true")
    ensures r.privileges in Privileges
    ensures r.isAdmin ==> r.status == 200 && r.privileges == NormalizePrivileges(Get(jar, "adminPrivileges"))
    ensures !r.isAdmin ==> r.status == 401 && r.privileges == ""
  {
    var privileges := NormalizePrivileges(Get(jar, "adminPrivileges"));
    if Get(jar, "isAdmin") == Some("true") then AdminStatus(200, true, privileges)
    else AdminStatus(401, false, "")
  }

  /** Normalising a label that came out of normalisation changes nothing. */
  lemma NormalizeIdempotent(raw: Option<string>)
    ensures NormalizePrivileges(Some(NormalizePrivileges(raw))) == NormalizePrivileges(raw)
  {
  }

  /** The answer depends on the two cookies it reads and on no other. */
  lemma OnlyTwoCookiesMatter(jar: Jar, other: Jar)
    requires Get(jar, "isAdmin") == Get(other, "isAdmin")
    requires Get(jar, "adminPrivileges") == Get(other, "adminPrivileges")
    ensures Verify(jar) == Verify(other)
  {
  }
}

=== FILE: verify_user.dfy ===
/** `GET /api/verify-user`: is a voter signed in, and as whom? */
module VerifyUser {
  import opened Basics
  import opened Cookies

  /** The JSON reply with its HTTP status; `email` only when valid. */
  datatype UserStatus = UserStatus(status: nat, valid: bool, email: Option<string>)

  /** Valid exactly when the `userEmail` cookie is present and non-empty;
      then the email is the cookie's value (status 200), otherwise there is
      no email and the status is 401. */
  function Verify(jar: Jar): (r: UserStatus)
    ensures r.valid <==> "userEmail" in jar && jar["userEmail"] != ""
    ensures r.valid ==> r.status == 200 && r.email == Some(jar["userEmail"])
    ensures !r.valid ==> r.status == 401 && r.email == None
  {
    var cookie := Get(jar, "userEmail");
    if Truthy(cookie) then UserStatus(200, true, cookie) else UserStatus(401, false, None)
  }

  /** An empty `userEmail` cookie counts as signed out. */
  lemma EmptyCookieSignedOut(jar: Jar)
    ensures !Verify(jar["userEmail" := ""]).valid
  {
  }
}
